=== FILE: README.md ===
# Codebase indexer and semantic search: the post-processing core in Dafny

The system indexes a source tree into a vector index and answers
natural-language queries against it. It then forwards the retrieved context
to the `claude` assistant process. Indexing, embedding, chunking and
nearest-neighbour search belong to external libraries. This model covers the
rules the repository applies around them. Each rule is a total function over
finite lists and strings:

- **Search** (`search.dfy`, `SemanticSearchEngine`): builds ranked result
  records with defaults for missing metadata, over-fetches and then filters by
  file type, renders results as Markdown, builds the retrieval-based file
  summary with its 1000-character preview, lists similar files without
  duplicates, and handles the lazy Unloaded/Loaded state of the engine.
  Retrieval is an oracle: `Index(retrieve)`, where `retrieve(q, k)` is the
  node list the library's retriever returns.
- **Commands** (`commands.dfy`): reads one line of the interactive loop.
  Quit words, `type:E Q`, `similar:P`, and everything else as a plain search.
- **Compose** (`compose.dfy`, `ClaudeCodeIntegration`): picks the context
  query and the search route, builds the prompt template and the `claude`
  argument lists, normalises extensions, and renders the file context.
- **Indexer** (`indexer.dfy`, `CodebaseIndexer`): the file-admission rule
  (extension allow-list, skipped directories, 1 MiB cap), the skip of blank
  content, per-document metadata, the empty-corpus error, the index metadata
  record and the rebuild-or-load decision of `update_index`.
- `text.dfy` and `outcomes.dfy` hold the Python string primitives (strip,
  lower, `lstrip('.')`, join, `str(int)`, the slice `[:n]`) and the
  Option/Result types.

Inputs that the program reads from the world are parameters:
- the engine's `stored` index: what `load_index` would produce now, or None;
- the walk entries: path, is-file flag, size or stat failure, content or read failure;
- the chunker `split`;
- the score renderer `render`, standing for `{score:.3f}`;
- the creation timestamp.

Behaviour of the code worth noting:
- Ranking and the score threshold happen inside the retriever. The code itself
  does no sorting or threshold filtering; it numbers ranks in the retriever's
  order.
- `file:<path>` is listed in the loop's help text, but the loop treats it as a
  plain search (`Commands.FileCommandIsPlainSearch`).
- For `top_k <= 0`, `get_similar_files` can still return one path, because its
  length check runs after the append.
- Querying an unloaded engine does not fail fast. `search` first tries to load
  and raises only if that fails; `get_file_summary` returns None instead.
- An empty corpus raises a plain `ValueError`.
- A non-forced update keeps the existing index. A forced update, or one
  without an existing index, always rebuilds with the networked embedder. An
  index built with the dummy embedder does not keep that choice.

## Model

| member | source | states |
|---|---|---|
| Search.SearchIn | src/search/engine.py:74-92 | one record per retrieved node, in retrieval order; ranks are 1..n; text and score are carried over; a missing `file_path`, `file_type`, `file_name` or `file_size` becomes `'unknown'`, `''`, `''` or `0` |
| Search.KeepTypes | src/search/engine.py:99-103 | a record is kept exactly when it was in the input and its lower-cased file type is one of the lower-cased extensions |
| Search.KeepTypesKeepsOrder | src/search/engine.py:99-103 | the filter keeps records in their original order, so ranks still increase and are not renumbered |
| Search.SearchByTypeIn | src/search/engine.py:94-105 | each result matches an extension and comes from `search(q, 2k)` with its rank unchanged; the output is a prefix of the filtered list holding `min(k, matches)` records for `k >= 0`, and all but the last `-k` matches for `k < 0`, as Python's `[:k]` does |
| Search.BlocksAt | src/search/engine.py:117-128 | line `5i + k` of the rendered blocks is line `k` of record `i`'s block, so the records appear in input order |
| Search.FormatLines | src/search/engine.py:112-128 | two heading lines, naming the query and the number of records, then five lines per record |
| Search.FormatLinesRecord | src/search/engine.py:117-128 | the five lines of record `i` are its heading with its own rank and path, its rendered score, a fence tagged with its file type without leading dots, its content verbatim, and the closing fence |
| Search.FormatForClaude | src/search/engine.py:107-130 | an empty list renders exactly `# No results found for: '<q>'`; any other list renders its lines joined by newlines, starting with the results heading naming `q`; the rendering is never empty |
| Search.HitsForCount | src/search/engine.py:145 | the chunk count equals the number of occurrences of the path among the hits' paths |
| Search.HitsForExact | src/search/engine.py:145-146 | only hits whose path equals the requested path exactly are aggregated |
| Search.PreviewStable | src/search/engine.py:151 | the preview agrees with the joined content on its first 1000 characters, and cutting it again changes nothing |
| Search.Preview | src/search/engine.py:151 | content of at most 1000 characters is kept whole; longer content is cut to its first 1000 characters followed by `...`, so a preview never exceeds 1003 characters |
| Search.SummaryIn | src/search/engine.py:139-153 | None exactly when the `file:<path>` search with top 20 is empty; otherwise the count of exact-path hits, their contents joined by newlines and previewed (at most 1003 characters, empty when nothing matches), and the file type of the first hit even if it belongs to another file |
| Search.DistinctFirstSpec | src/search/engine.py:167-175 | the reference list of first occurrences is duplicate-free, excludes the seen set, and contains exactly the unseen retrieved paths |
| Search.CollectSimilar | src/search/engine.py:167-180 | the source loop, including the break after the append, returns the first `k` distinct paths other than the file for `k >= 1`, and at most the first path for `k <= 0` |
| Search.SimilarPathsSpec | src/search/engine.py:167-180 | similar files never include the file itself, are distinct, come from the retrieved paths, and number at most `k` (at most 1 when `k <= 0`) |
| Search.SimilarIn | src/search/engine.py:158-180 | `[]` without a summary; otherwise the first distinct paths other than the file among the records of `search(preview, 2k)`, so never the file, no repeats, within the length bound |
| Search.LoadIndex | src/search/engine.py:25-59 | loading succeeds exactly when an index can be read; on success it replaces the held index, and on failure the engine is unchanged |
| Search.EngineSearch | src/search/engine.py:61-74 | fails with "Could not load search index" exactly when no index is held and none can be loaded; otherwise searches the held index, or the freshly loaded one; a loaded engine is returned unchanged, and an unloaded one only gains the loaded index |
| Search.EngineSearchByType | src/search/engine.py:61-97 | a failed lazy load raises "Could not load search index" as `search` does; otherwise it is the file-type search on the held or freshly loaded index; the engine changes only by that lazy load |
| Search.EngineFileSummary | src/search/engine.py:132-153 | a failed lazy load yields None rather than an error; an engine that loads keeps the loaded index and summarises from it; a loaded engine summarises from its own index and stays unchanged |
| Search.EngineSimilarFiles | src/search/engine.py:155-180 | `[]` when nothing can be loaded; otherwise the similar files on the held or freshly loaded index; the engine changes only by that lazy load; never the file itself and no repeats |
| Commands.SearchCommandRebuildsText | src/search/engine.py:234-252 | `type:E Q` splits at the first space (E holds no space); `type:` without a space gives the usage message; `similar:P` keeps all text after the first colon; anything else is searched verbatim |
| Commands.ClassifyRebuildsLine | src/search/engine.py:211-252 | every line that reaches a search command is rebuilt exactly from the command's parts |
| Commands.QuitIsCaseInsensitive | src/search/engine.py:211-214 | the loop ends exactly when the stripped, lower-cased line is `quit`, `exit` or `q` |
| Commands.Classify | src/search/engine.py:211-252 | a line is a quit word, `help` or `stats` exactly when its stripped, lower-cased text is one; it is skipped exactly when it is blank after stripping; every other line is a search command |
| Commands.FileCommandIsPlainSearch | src/search/engine.py:233-252 | a `file:` line is a plain search; no branch handles it |
| Commands.Respond | src/search/engine.py:209-263 | quit words exit; help, stats and blank lines continue; `type:` without a space gives the usage message; `type:E Q` renders `search_by_file_type(Q, ['.'+E], 5)`, `similar:P` lists the similar files of P with top 5, and any other line renders `search(line, 5)`, all headed by the whole stripped line |
| Commands.Show | src/search/engine.py:254-263 | non-empty results are rendered by `format_for_claude` under the line, and "no results" is reported with the line otherwise |
| Compose.SearchQuery | src/integration/claude.py:41 | the context query is used when given and non-empty; an absent or empty one falls back to the user request |
| Compose.Retrieved | src/integration/claude.py:46-50 | a non-empty extension list routes to the file-type search with `top_k`; a missing or empty one routes to plain search |
| Compose.Context | src/integration/claude.py:52-58 | the context is empty exactly when there are no results; otherwise it is `format_for_claude` of the results under the search query, so it opens with the results heading naming that query |
| Compose.PromptRecoversParts | src/integration/claude.py:62-73 | without context the prompt is the request unchanged; with context the prompt is the fixed template, and the context and the request can be cut back out of it verbatim at fixed offsets |
| Compose.Prompt | src/integration/claude.py:62-73 | without context the prompt is the request itself; with context it opens with the fixed introduction and its length is that of the template's parts together |
| Compose.InteractiveArgv | src/integration/claude.py:112-115 | interactive argv is `claude` followed by the extra arguments and never holds the prompt |
| Compose.BatchArgv | src/integration/claude.py:83-88 | batch argv is the interactive argv followed by `--print` and the prompt as the last argument |
| Compose.RunWithContext | src/integration/claude.py:26-78 | exits when loading fails; otherwise the prompt is the request alone when the search found nothing, or the template around the rendered results; argv matches the mode |
| Compose.NormalizeExt | src/integration/claude.py:283-284 | every normalised extension starts with `.`; one that already starts with `.` is unchanged, and any other gets one dot prefixed |
| Compose.NormalizeExtsIdempotent | src/integration/claude.py:281-284 | normalising twice equals normalising once, and removing the added dot restores an extension given without one |
| Compose.GetFileContext | src/integration/claude.py:149-167 | None when loading fails or there is no summary; otherwise the file-context template for the summary |
| Compose.FileContextFencesPreview | src/integration/claude.py:158-167 | the file context starts by naming the file and ends with the preview verbatim, fenced under the file type without leading dots |
| Compose.FindSimilarFiles | src/integration/claude.py:169-174 | `[]` when loading fails; otherwise the engine's similar files on the loaded index, never the file itself, without duplicates and within the length bound |
| Indexer.Suffix | src/indexer/core.py:45 | a suffix is empty, or a proper tail of the name that starts with its only dot; it is non-empty exactly when the name has a dot after its first character and does not end in a dot |
| Indexer.SuffixCases | src/indexer/core.py:45 | a name is its stem plus its suffix; a hidden name like `.bashrc`, or a name ending in a dot, has no suffix |
| Indexer.SuffixCaseIgnored | src/indexer/core.py:43-60 | the extension test ignores case: any name, skipped directory names such as `BUILD` included, is admitted exactly when its lower-cased form is |
| Indexer.SkipDirAnywhereRejects | src/indexer/core.py:49-50 | a skipped directory name anywhere in the full path rejects the file, including in the project-root prefix |
| Indexer.SizeBoundary | src/indexer/core.py:53-58 | exactly 1 MiB is admitted as an empty file would be; one byte more is rejected; a failed `stat` rejects |
| Indexer.ShouldIndexFile | src/indexer/core.py:43-60 | an admitted path is non-empty, its file name has a suffix and is not itself a skipped directory name, and its size is known and at most 1 MiB |
| Indexer.LoadDocuments | src/indexer/core.py:62-96 | at most one document per walked entry; no document is whitespace-only; each document's size is its length in characters |
| Indexer.EntryDocuments | src/indexer/core.py:68-90 | an admitted entry yields exactly its document and any other entry yields nothing; a yielded document is not whitespace-only and its size is its length in characters |
| Indexer.LoadDocumentsComplete | src/indexer/core.py:68-90 | every admitted entry yields its document (relative path, original-case suffix, name, size in characters) |
| Indexer.MakeDocument | src/indexer/core.py:78-89 | the document's text is the decoded content; its metadata records the length of that text, the file name, and the name's suffix in its original case |
| Indexer.LoadDocumentsSound | src/indexer/core.py:68-90 | every document comes from a walked entry that is a file, passes the admission rule, was read, and is not whitespace-only |
| Indexer.SameSuffixSameVerdict | src/indexer/core.py:43-60 | two names in the same directory whose suffixes agree after lower-casing, neither a skipped directory, get the same admission verdict |
| Indexer.BlankFileSkipped | src/indexer/core.py:74-76 | whitespace-only content yields no document |
| Indexer.CreateIndex | src/indexer/core.py:98-160 | fails exactly when no document survives loading; otherwise the document and chunk counts, the 29 extensions, and either `dummy`/384 or the given model/1536 depending on the embedder choice |
| Indexer.UpdateIndex | src/indexer/core.py:168-174 | keeps the existing index exactly when it exists and the update is not forced; otherwise it rebuilds with the default networked embedder |
| Indexer.ForcedUpdateDropsDummy | src/indexer/core.py:117-123 | a forced update rebuilds with dimension 1536 even when the index was built with the dummy embedder |
| Text.StripEmptyIffBlank | src/indexer/core.py:75 | `not content.strip()` holds exactly for whitespace-only content; otherwise the stripped text has no white space at either end |
| Text.NatToStringValue | src/search/engine.py:114 | `str(n)` of a natural number reads back as `n` and has no leading zero unless it is `0` |
| Text.IntToStringValue | src/search/engine.py:123 | `str(i)` reads back as `i`: the numeral of `i` when it is not negative, a minus sign before the numeral of `-i` otherwise |
| Text.PyHead | src/search/engine.py:105 | `[:k]` keeps `min(k, n)` leading records for `k >= 0` and drops `-k` from the end for `k < 0` |

## Left out

- Vector search, embeddings (OpenAI and the hash-seeded dummy embedder), and the chunking by `SimpleNodeParser`. These are library code. Retrieval is the `retrieve` oracle, and chunking is the `split` parameter. No coverage or overlap claim is made about chunks.
- The `score_threshold` argument of `search`: it is handed to the retriever and applied there, so the `retrieve` oracle absorbs it. Every call inside `engine.py` and `claude.py` uses the default `0.0`; `src/cli/search.py:57-58` passes the user's `--score-threshold`.
- Score rendering `{score:.3f}` is float formatting. It is the `render` parameter. A node whose score is None is not modelled.
- `Text.Lower` lower-cases ASCII letters only. Python's `str.lower()` also maps non-ASCII letters.
- Metadata values of other types than the indexer stores (for example a non-string `file_type`) are not modelled.
- File system and persistence are not modelled: the directory walk, file reading and decoding, `stat`, `metadata.json`, `StorageContext` persist/load, `load_existing_index`, and `get_index_stats`. Their outcomes are inputs.
- The choice of embedder inside `load_index`, based on the `use_dummy` metadata key, is not modelled.
- `Indexer.CreateIndex` records the project path as given text (`str(project_path)`). The order of `supported_extensions` in the persisted list is not modelled; it is kept as a set.
- `Indexer.Suffix` follows the `Path.suffix` rule of CPython up to 3.13. A dot counts only when it is neither the first nor the last character of the name.
- Terminal and process work is not modelled: `print`, `input`, `sys.exit`, `subprocess.run` and its exit code, and the 100-character echo of the prompt in interactive mode. The help and stats output of the interactive loop and the handling of `KeyboardInterrupt` and other exceptions are left out as well.
- `search_and_show`, `show_stats` and the argparse dispatch in `main`, `src/cli/main.py` and `src/cli/search.py` are CLI glue. The `--search-only` branch passes extensions without normalising them; that branch is not modelled.

=== FILE: commands.dfy ===
/** The command language of the engine's interactive loop
    (`interactive_search`, src/search/engine.py): how one input line is read
    and which engine call it leads to. */
module Commands {
  import opened Text
  import opened Search

  /** What one input line asks for. */
  datatype Command =
    | Quit
    | Help
    | Stats
    | Blank
    | TypeUsage
    | ByType(ext: string, query: string)
    | Similar(path: string)
    | Plain(query: string)

  /** The words that end the loop, compared after lower-casing. */
  const QuitWords: seq<string> := ["quit", "exit", "q"]

  /** Position of the first occurrence of `c` in `s`, if any. */
  function FirstIndexOf(s: string, c: char): (i: int)
    ensures -1 <= i < |s|
    ensures i == -1 <==> c !in s
    ensures i >= 0 ==> s[i] == c && c !in s[..i]
  {
    if |s| == 0 then -1
    else if s[0] == c then 0
    else
      var j := FirstIndexOf(s[1..], c);
      assert s[1..][..(if j < 0 then 0 else j)] == s[1..1 + (if j < 0 then 0 else j)];
      if j == -1 then -1 else j + 1
  }

  /** Reads a line the way the loop does: strip it, test the quit words and
      the `help` and `stats` words case-insensitively, skip empty input, and
      otherwise read a search command. */
  function Classify(line: string): (c: Command)
    ensures c == Quit <==> Lower(Strip(line)) in QuitWords
    ensures c == Help <==> Lower(Strip(line)) == "help"
    ensures c == Stats <==> Lower(Strip(line)) == "stats"
    ensures c == Blank <==> Strip(line) == ""
  {
    ControlWordsDiffer();
    var s := Strip(line);
    var word := Lower(s);
    if word in QuitWords then Quit
    else if word == "help" then Help
    else if word == "stats" then Stats
    else if s == "" then Blank
    else SearchCommand(s)
  }

  /** The control words are distinct from each other and from empty input. */
  lemma ControlWordsDiffer()
    ensures "help" !in QuitWords && "stats" !in QuitWords && "" !in QuitWords
    ensures "help" != "stats" && "help" != "" && "stats" != ""
    ensures Lower("") == ""
  {
  }

  /** The case-sensitive `type:` and `similar:` prefixes. `type:E Q` splits
      at the first space; `similar:P` keeps everything after the first colon;
      anything else (including `file:...`) is a plain search. */
  function SearchCommand(s: string): (c: Command)
    ensures c.ByType? || c.TypeUsage? || c.Similar? || c.Plain?
  {
    if StartsWith(s, "type:") then TypeCommand(s[5..])
    else if StartsWith(s, "similar:") then Similar(s[8..])
    else Plain(s)
  }

  /** The text after `type:` ("type:" holds no space, so the first space of
      the line is the first one after the prefix). */
  function TypeCommand(rest: string): Command {
    var sp := FirstIndexOf(rest, ' ');
    if sp == -1 then TypeUsage else ByType(rest[..sp], rest[sp + 1..])
  }

  /** A search command is lossless: the text is rebuilt from its parts, the
      extension of `type:E Q` holds no space, and `type:` without a space is
      the usage message. */
  lemma SearchCommandRebuildsText(s: string)
    ensures SearchCommand(s).ByType? ==>
      && s == "type:" + SearchCommand(s).ext + " " + SearchCommand(s).query
      && ' ' !in SearchCommand(s).ext
    ensures SearchCommand(s).TypeUsage? ==> StartsWith(s, "type:") && ' ' !in s
    ensures SearchCommand(s).Similar? ==> s == "similar:" + SearchCommand(s).path
    ensures SearchCommand(s).Plain? ==> SearchCommand(s).query == s
  {
    if StartsWith(s, "type:") {
      TypeLineRebuilds(s);
    } else if StartsWith(s, "similar:") {
      SimilarLineRebuilds(s);
    }
  }

  /** The `type:` case of `SearchCommandRebuildsText`. */
  lemma TypeLineRebuilds(s: string)
    requires StartsWith(s, "type:")
    ensures SearchCommand(s) == TypeCommand(s[5..])
    ensures TypeCommand(s[5..]).ByType? ==>
      s == "type:" + TypeCommand(s[5..]).ext + " " + TypeCommand(s[5..]).query && ' ' !in TypeCommand(s[5..]).ext
    ensures TypeCommand(s[5..]).TypeUsage? ==> ' ' !in s
  {
    var rest := s[5..];
    TypeCommandSplitsAtSpace(rest);
    assert s == "type:" + rest;
    assert ' ' !in "type:";
  }

  /** The `similar:` case of `SearchCommandRebuildsText`. */
  lemma SimilarLineRebuilds(s: string)
    requires !StartsWith(s, "type:") && StartsWith(s, "similar:")
    ensures SearchCommand(s) == Similar(s[8..]) && s == "similar:" + s[8..]
  {
    assert s == s[..8] + s[8..];
  }

  /** `type:` text splits at its first space into an extension without
      spaces and the query; without a space it is the usage message. */
  lemma TypeCommandSplitsAtSpace(rest: string)
    ensures TypeCommand(rest).ByType? || TypeCommand(rest).TypeUsage?
    ensures TypeCommand(rest).ByType? ==>
      rest == TypeCommand(rest).ext + " " + TypeCommand(rest).query && ' ' !in TypeCommand(rest).ext
    ensures TypeCommand(rest).TypeUsage? ==> ' ' !in rest
  {
    var sp := FirstIndexOf(rest, ' ');
    if sp != -1 {
      assert rest == rest[..sp] + [' '] + rest[sp + 1..];
    }
  }

  /** A line is a control word, blank, or a search command of its stripped text. */
  lemma ClassifyCases(line: string)
    ensures var c := Classify(line);
      c == Quit || c == Help || c == Stats || c == Blank || c == SearchCommand(Strip(line))
  {
  }

  /** Every line that reaches the search commands is read losslessly. */
  lemma ClassifyRebuildsLine(line: string)
    ensures Classify(line).ByType? ==>
      Strip(line) == "type:" + Classify(line).ext + " " + Classify(line).query
    ensures Classify(line).Similar? ==> Strip(line) == "similar:" + Classify(line).path
    ensures Classify(line).Plain? ==> Classify(line).query == Strip(line)
  {
    ClassifyCases(line);
    SearchCommandRebuildsText(Strip(line));
  }

  /** The loop ends exactly on a quit word, in any letter case. */
  lemma QuitIsCaseInsensitive(line: string)
    ensures Classify(line) == Quit <==> Lower(Strip(line)) in ["quit", "exit", "q"]
  {
  }

  /** `file:` has no command of its own: it is searched as plain text. */
  lemma FileCommandIsPlainSearch(path: string)
    ensures Classify("file:" + path).Plain?
  {
    StripKeepsPrefix("file:", path);
    var s := Strip("file:" + path);
    NotControlWord(s);
    ClassifySearch("file:" + path);
    FilePrefixIsPlain(s);
  }

  /** A line that is neither a control word nor blank is read as a search
      command of its stripped text. */
  lemma ClassifySearch(line: string)
    requires var w := Lower(Strip(line)); w !in QuitWords && w != "help" && w != "stats"
    requires Strip(line) != ""
    ensures Classify(line) == SearchCommand(Strip(line))
  {
  }

  /** No control word starts with 'f'. */
  lemma NotControlWord(s: string)
    requires |s| > 0 && s[0] == 'f'
    ensures var w := Lower(s); w !in QuitWords && w != "help" && w != "stats"
  {
    assert Lower(s)[0] == 'f';
  }

  /** Text starting with `file:` is neither `type:` nor `similar:`. */
  lemma FilePrefixIsPlain(s: string)
    requires StartsWith(s, "file:")
    ensures SearchCommand(s) == Plain(s)
  {
    assert s[0] == 'f';
  }

  /** Stripping keeps a prefix that starts and ends with a visible character. */
  lemma StripKeepsPrefix(p: string, x: string)
    requires |p| > 0 && !IsSpace(p[0]) && !IsSpace(p[|p| - 1])
    ensures StartsWith(Strip(p + x), p)
  {
    var line := p + x;
    assert LStrip(line) == line;
    var s := RStrip(line);
    assert !IsSpace(line[|p| - 1]);
    assert |s| >= |p|;
    assert s[..|p|] == line[..|p|];
  }

  /** What the loop does with one line once the index is loaded. */
  datatype Reply =
    | Exit
    | Continue
    | Usage
    | SimilarFiles(path: string, files: seq<string>)
    | Rendered(text: string)
    | NothingFound(query: string)

  /** One turn of the loop on a loaded index. The search commands use the
      default `top_k` of 5, `type:E Q` searches `Q` for the one extension
      `"." + E`, and the rendering is headed by the whole stripped line, not
      just the query part. */
  function Respond(ix: Index, line: string, render: real -> string): (reply: Reply)
    ensures Classify(line) == Quit <==> reply == Exit
    ensures Classify(line).TypeUsage? <==> reply == Usage
    ensures reply.Rendered? ==> StartsWith(reply.text, "# Semantic Search Results for: '" + Strip(line) + "'")
    ensures reply.NothingFound? ==> reply.query == Strip(line)
    ensures reply.SimilarFiles? ==> reply.path !in reply.files && |reply.files| <= DefaultTopK
    ensures var c := Classify(line);
      && (c == Help || c == Stats || c == Blank ==> reply == Continue)
      && (c.ByType? ==> reply == Show(SearchByTypeIn(ix, c.query, ["." + c.ext], DefaultTopK), Strip(line), render))
      && (c.Similar? ==> reply == SimilarFiles(c.path, SimilarIn(ix, c.path, DefaultTopK)))
      && (c.Plain? ==> reply == Show(SearchIn(ix, Strip(line), DefaultTopK), Strip(line), render))
  {
    ClassifyRebuildsLine(line);
    var s := Strip(line);
    match Classify(line)
    case Quit => Exit
    case Help => Continue
    case Stats => Continue
    case Blank => Continue
    case TypeUsage => Usage
    case Similar(p) => SimilarFiles(p, SimilarIn(ix, p, DefaultTopK))
    case ByType(ext, q) => Show(SearchByTypeIn(ix, q, ["." + ext], DefaultTopK), s, render)
    case Plain(q) => Show(SearchIn(ix, q, DefaultTopK), s, render)
  }

  /** Renders found records under the heading `query`, or reports none. */
  function Show(rs: seq<SearchResult>, query: string, render: real -> string): (reply: Reply)
    ensures reply.Rendered? || reply.NothingFound?
    ensures reply.NothingFound? <==> |rs| == 0
    ensures reply.Rendered? ==> StartsWith(reply.text, "# Semantic Search Results for: '" + query + "'")
    ensures reply.Rendered? ==> reply.text == FormatForClaude(rs, query, render)
    ensures reply.NothingFound? ==> reply.query == query
  {
    if |rs| > 0 then Rendered(FormatForClaude(rs, query, render)) else NothingFound(query)
  }
}

=== FILE: compose.dfy ===
/** The assistant integration (`ClaudeCodeIntegration`,
    src/integration/claude.py): which search runs, the prompt built from its
    results, and the argument list the `claude` process is started with. */
module Compose {
  import opened Outcomes
  import opened Text
  import opened Search

  /** The text searched for context: the context query when it is given and
      non-empty (Python truthiness), otherwise the user's request. */
  function SearchQuery(userQuery: string, contextQuery: Option<string>): (q: string)
    ensures contextQuery.Some? && contextQuery.value != "" ==> q == contextQuery.value
    ensures contextQuery.None? || contextQuery.value == "" ==> q == userQuery
  {
    if contextQuery.Some? && contextQuery.value != "" then contextQuery.value else userQuery
  }

  /** The records the context is built from: a non-empty extension list
      routes to `search_by_file_type`, a missing or empty one to `search`. */
  function Retrieved(ix: Index, query: string, fileTypes: Option<seq<string>>, topK: int): (rs: seq<SearchResult>)
    ensures fileTypes.Some? && |fileTypes.value| > 0 ==> rs == SearchByTypeIn(ix, query, fileTypes.value, topK)
    ensures fileTypes.None? || |fileTypes.value| == 0 ==> rs == SearchIn(ix, query, topK)
  {
    if fileTypes.Some? && |fileTypes.value| > 0 then SearchByTypeIn(ix, query, fileTypes.value, topK)
    else SearchIn(ix, query, topK)
  }

  /** The context text: empty without results, otherwise the rendering of the
      results under the search query; it is empty only without results. */
  function Context(rs: seq<SearchResult>, query: string, render: real -> string): (c: string)
    ensures c == "" <==> |rs| == 0
    ensures |rs| > 0 ==> c == FormatForClaude(rs, query, render)
    ensures |rs| > 0 ==> StartsWith(c, "# Semantic Search Results for: '" + query + "'")
  {
    if |rs| == 0 then "" else FormatForClaude(rs, query, render)
  }

  const Intro: string := "Here's relevant context from the codebase:\n\n"
  const Separator: string := "\n\n---\n\nUser Request: "
  const Closing: string := "\n\nPlease help with the above request using the provided codebase context."

  /** The prompt: the request alone without context, otherwise the fixed
      template around the context and the request. */
  function Prompt(userQuery: string, context: string): (p: string)
    ensures context == "" ==> p == userQuery
    ensures context != "" ==>
      && |p| == |Intro| + |context| + |Separator| + |userQuery| + |Closing|
      && StartsWith(p, Intro)
  {
    if context == "" then userQuery else Intro + context + Separator + userQuery + Closing
  }

  /** The prompt keeps the request verbatim, and with context also the
      context verbatim: both can be cut back out of it at fixed offsets. */
  lemma PromptRecoversParts(userQuery: string, context: string)
    ensures context == "" ==> Prompt(userQuery, context) == userQuery
    ensures context != "" ==>
      var p := Prompt(userQuery, context);
      var start := |Intro| + |context| + |Separator|;
      && |p| == start + |userQuery| + |Closing|
      && p[|Intro|..|Intro| + |context|] == context
      && p[start..start + |userQuery|] == userQuery
      && StartsWith(p, Intro)
      && p[start + |userQuery|..] == Closing
  {
    if context != "" {
      var p := Prompt(userQuery, context);
      var start := |Intro| + |context| + |Separator|;
      assert p == ((Intro + context) + Separator) + userQuery + Closing;
      assert p[..|Intro|] == Intro;
      assert p[|Intro|..|Intro| + |context|] == context;
      assert p[start..start + |userQuery|] == userQuery;
    }
  }

  /** Python truthiness of an optional list: `claude_args` adds nothing when
      it is None or empty. */
  function ArgsOf(claudeArgs: Option<seq<string>>): seq<string> {
    if claudeArgs.Some? then claudeArgs.value else []
  }

  /** The argument list of the interactive run: the prompt is shown on the
      terminal, never passed to the process. */
  function InteractiveArgv(claudeArgs: Option<seq<string>>): (argv: seq<string>)
    ensures |argv| == 1 + |ArgsOf(claudeArgs)|
    ensures argv[0] == "claude" && argv[1..] == ArgsOf(claudeArgs)
  {
    ["claude"] + ArgsOf(claudeArgs)
  }

  /** The argument list of the batch run: the interactive list followed by
      `--print` and the prompt as the last argument. */
  function BatchArgv(prompt: string, claudeArgs: Option<seq<string>>): (argv: seq<string>)
    ensures argv == InteractiveArgv(claudeArgs) + ["--print", prompt]
    ensures argv[|argv| - 1] == prompt && argv[|argv| - 2] == "--print"
  {
    ["claude"] + ArgsOf(claudeArgs) + ["--print", prompt]
  }

  /** How `run_with_context` ends: with exit status 1 when the index cannot
      be loaded, or by starting `claude` with `argv` (the prompt shown on the
      terminal in interactive mode). */
  datatype Launch = LoadFailed | Start(argv: seq<string>, prompt: string, interactive: bool)

  /** `run_with_context`: loads the index explicitly, searches for context,
      composes the prompt and picks the argument list for the mode. */
  function RunWithContext(
    e: Engine, userQuery: string, contextQuery: Option<string>, topK: int,
    fileTypes: Option<seq<string>>, claudeArgs: Option<seq<string>>, interactive: bool,
    render: real -> string): (out: Launch)
    ensures out.LoadFailed? <==> e.stored.None?
    ensures out.Start? ==>
      var q := SearchQuery(userQuery, contextQuery);
      var rs := Retrieved(e.stored.value, q, fileTypes, topK);
      && out.interactive == interactive
      && (|rs| == 0 ==> out.prompt == userQuery)
      && (|rs| > 0 ==> out.prompt == Intro + FormatForClaude(rs, q, render) + Separator + userQuery + Closing)
      && (interactive ==> out.argv == InteractiveArgv(claudeArgs))
      && (!interactive ==> out.argv == BatchArgv(out.prompt, claudeArgs))
  {
    var (loaded, ok) := LoadIndex(e);
    if !ok then LoadFailed
    else
      var q := SearchQuery(userQuery, contextQuery);
      var rs := Retrieved(loaded.index.value, q, fileTypes, topK);
      var prompt := Prompt(userQuery, Context(rs, q, render));
      Start(if interactive then InteractiveArgv(claudeArgs) else BatchArgv(prompt, claudeArgs), prompt, interactive)
  }

  /** The command line's extension normalisation: prefix a dot only when it
      is missing. */
  function NormalizeExt(ext: string): (r: string)
    ensures StartsWith(r, ".")
    ensures StartsWith(ext, ".") ==> r == ext
    ensures !StartsWith(ext, ".") ==> r == "." + ext
  {
    if StartsWith(ext, ".") then ext else "." + ext
  }

  /** Every extension normalised, in order. */
  function NormalizeExts(exts: seq<string>): (r: seq<string>)
    ensures |r| == |exts|
    ensures forall i :: 0 <= i < |exts| ==> r[i] == NormalizeExt(exts[i])
  {
    seq(|exts|, i requires 0 <= i < |exts| => NormalizeExt(exts[i]))
  }

  /** Normalising is idempotent, and removing the added dot gives back an
      extension given without one. */
  lemma NormalizeExtsIdempotent(exts: seq<string>)
    ensures NormalizeExts(NormalizeExts(exts)) == NormalizeExts(exts)
    ensures forall i :: 0 <= i < |exts| && !StartsWith(exts[i], ".") ==> NormalizeExts(exts)[i][1..] == exts[i]
  {
  }

  /** The file-context rendering of a summary: a heading naming the file,
      the file type and chunk count, then the fenced preview. */
  function FileContextText(path: string, s: Summary): string {
    ("# File Context: " + path)
    + ("\n\n**File Type:** " + s.fileType + "\n**Total Chunks:** " + IntToString(s.totalChunks) + "\n\n## Content Preview:\n")
    + Fence(s)
  }

  /** The preview fenced under the file type without its leading dots. */
  function Fence(s: Summary): string {
    "```" + LStripDots(s.fileType) + "\n" + s.contentPreview + "\n```\n"
  }

  /** `get_file_context`: loads the index explicitly, None on a failed load
      or when there is no summary, otherwise the file-context rendering. */
  function GetFileContext(e: Engine, path: string): (out: Option<string>)
    ensures e.stored.None? ==> out.None?
    ensures e.stored.Some? ==>
      match SummaryIn(e.stored.value, path)
      case None => out.None?
      case Some(s) => out == Some(FileContextText(path, s))
  {
    var (loaded, ok) := LoadIndex(e);
    if !ok then None
    else
      match EngineFileSummary(loaded, path).1
      case None => None
      case Some(s) => Some(FileContextText(path, s))
  }

  /** The file-context text starts by naming the file and ends with the
      preview, verbatim, fenced under the file type without leading dots. */
  lemma FileContextFencesPreview(path: string, s: Summary)
    ensures var text := FileContextText(path, s);
      && StartsWith(text, "# File Context: " + path)
      && |text| >= |Fence(s)|
      && text[|text| - |Fence(s)|..] == "```" + LStripDots(s.fileType) + "\n" + s.contentPreview + "\n```\n"
  {
    var head := "# File Context: " + path;
    var mid := "\n\n**File Type:** " + s.fileType + "\n**Total Chunks:** " + IntToString(s.totalChunks) + "\n\n## Content Preview:\n";
    var text := FileContextText(path, s);
    assert text == head + mid + Fence(s);
    assert text[..|head|] == head;
    assert text[|text| - |Fence(s)|..] == Fence(s);
  }

  /** `find_similar_files`: loads the index explicitly; `[]` when it cannot. */
  function FindSimilarFiles(e: Engine, path: string, topK: int): (files: seq<string>)
    ensures e.stored.None? ==> files == []
    ensures e.stored.Some? ==> files == SimilarIn(e.stored.value, path, topK)
    ensures path !in files && Distinct(files)
    ensures |files| <= (if topK >= 1 then topK else 1)
  {
    var (loaded, ok) := LoadIndex(e);
    if !ok then [] else EngineSimilarFiles(loaded, path, topK).1
  }
}

=== FILE: indexer.dfy ===
/** The indexing policy (`CodebaseIndexer`, src/indexer/core.py): which files
    are admitted, the document built from each, the index-level metadata and
    the rebuild-or-load decision. Walking the tree, reading files, chunking,
    embedding and persisting are left to the caller as inputs. */
module Indexer {
  import opened Outcomes
  import opened Text

  /** The 29 extensions indexed, compared with the lower-cased suffix. */
  const SupportedExtensions: set<string> := {
    ".py", ".js", ".ts", ".jsx", ".tsx", ".java", ".cpp", ".c",
    ".h", ".hpp", ".cs", ".php", ".rb", ".go", ".rs", ".swift",
    ".kt", ".scala", ".sh", ".sql", ".yaml", ".yml", ".json",
    ".md", ".txt", ".rst", ".toml", ".cfg", ".ini" }

  /** The 18 directory names whose presence anywhere in a path excludes it. */
  const SkipDirs: set<string> := {
    "node_modules", ".git", "__pycache__", ".pytest_cache",
    "venv", "env", ".venv", "dist", "build", ".next",
    "target", "bin", "obj", ".mypy_cache", "coverage",
    ".tox", ".nox", "htmlcov" }

  /** Files larger than this many bytes are skipped. */
  const MaxFileSize: int := 1024 * 1024

  const DefaultEmbeddingModel: string := "text-embedding-ada-002"
  const DummyModelName: string := "dummy"
  const DummyDimension: nat := 384
  const OpenAIDimension: nat := 1536

  /** A path, as the list of its components (`Path.parts`). */
  type PathParts = seq<string>

  /** `Path.name`: the last component, "" for an empty path. */
  function Name(parts: PathParts): string {
    if |parts| == 0 then "" else parts[|parts| - 1]
  }

  /** Position of the last occurrence of `c` in `s`, -1 when absent
      (`str.rfind`). */
  function LastIndexOf(s: string, c: char): (i: int)
    ensures -1 <= i < |s|
    ensures i >= 0 ==> s[i] == c
    ensures forall k :: i < k < |s| ==> s[k] != c
  {
    if |s| == 0 then -1
    else if s[|s| - 1] == c then |s| - 1
    else LastIndexOf(s[..|s| - 1], c)
  }

  /** `Path.suffix` of a file name: from its last dot on, provided that dot
      is neither the first nor the last character; otherwise "". */
  function Suffix(name: string): (r: string)
    ensures r == "" || (|r| >= 2 && r[0] == '.' && |r| < |name| && r == name[|name| - |r|..])
    ensures forall k :: 0 < k < |r| ==> r[k] != '.'
    ensures |name| > 0 ==>
      (r != "" <==> name[|name| - 1] != '.' && exists k :: 0 < k < |name| - 1 && name[k] == '.')
  {
    var i := LastIndexOf(name, '.');
    if 0 < i < |name| - 1 then name[i..] else ""
  }

  /** A name is its stem followed by its suffix, and a hidden file such as
      `.bashrc` or a name ending in a dot has no suffix. */
  lemma SuffixCases(name: string)
    ensures name == name[..|name| - |Suffix(name)|] + Suffix(name)
    ensures |name| > 0 && name[0] == '.' && '.' !in name[1..] ==> Suffix(name) == ""
    ensures |name| > 0 && name[|name| - 1] == '.' ==> Suffix(name) == ""
  {
  }

  /** The lower-cased suffix of the name is one of the supported extensions. */
  predicate HasSupportedSuffix(name: string) {
    Lower(Suffix(name)) in SupportedExtensions
  }

  /** No component of the path is a skipped directory name. */
  predicate OutsideSkipDirs(path: PathParts) {
    forall i :: 0 <= i < |path| ==> path[i] !in SkipDirs
  }

  /** `should_index_file`: a supported lower-cased suffix, no component of
      the whole path among the skipped directories, and a size (None when
      `stat` failed) of at most `MaxFileSize`. */
  predicate ShouldIndexFile(path: PathParts, size: Option<int>): (ok: bool)
    ensures ok ==> |path| > 0 && Suffix(Name(path)) != "" && path[|path| - 1] !in SkipDirs
    ensures ok ==> size.Some? && size.value <= 1048576
  {
    && HasSupportedSuffix(Name(path))
    && OutsideSkipDirs(path)
    && size.Some?
    && size.value <= MaxFileSize
  }

  /** The size boundary is inclusive: exactly 1 MiB is admitted, one byte
      more is not, and a failed `stat` rejects. */
  lemma SizeBoundary(path: PathParts)
    ensures ShouldIndexFile(path, Some(1048576)) <==> ShouldIndexFile(path, Some(0))
    ensures !ShouldIndexFile(path, Some(1048577))
    ensures !ShouldIndexFile(path, None)
  {
  }

  /** A skipped directory anywhere in the path rejects the file, even as a
      component of the project root itself. */
  lemma SkipDirAnywhereRejects(root: PathParts, rel: PathParts, size: Option<int>)
    requires exists i :: 0 <= i < |root| && root[i] in SkipDirs
    ensures !ShouldIndexFile(root + rel, size)
  {
    var i :| 0 <= i < |root| && root[i] in SkipDirs;
    assert (root + rel)[i] == root[i];
  }

  /** The suffix filter ignores letter case: a name is admitted exactly when
      its lower-cased form would be. */
  lemma SuffixCaseIgnored(dir: PathParts, name: string, size: Option<int>)
    ensures ShouldIndexFile(dir + [name], size) <==> ShouldIndexFile(dir + [Lower(name)], size)
  {
    LowerKeepsSuffix(name);
    if name in SkipDirs || Lower(name) in SkipDirs {
      SkippedFormHasNoSuffix(name);
      NoSuffixRejected(dir, name, size);
      NoSuffixRejected(dir, Lower(name), size);
    } else {
      SameSuffixSameVerdict(dir, name, Lower(name), size);
    }
  }

  /** When a name or its lower-cased form is a skipped directory name, the
      name has no suffix. */
  lemma SkippedFormHasNoSuffix(name: string)
    requires name in SkipDirs || Lower(name) in SkipDirs
    ensures Lower(Suffix(name)) == ""
  {
    LowerKeepsSuffix(name);
    if name in SkipDirs {
      NoSkipDirHasSuffix(name);
    } else {
      NoSkipDirHasSuffix(Lower(name));
    }
  }

  /** A name without a suffix is never admitted. */
  lemma NoSuffixRejected(dir: PathParts, name: string, size: Option<int>)
    requires Lower(Suffix(name)) == ""
    ensures !ShouldIndexFile(dir + [name], size)
  {
    assert Name(dir + [name]) == name;
    assert "" !in SupportedExtensions;
  }

  /** No skipped directory name has a suffix. */
  lemma NoSkipDirHasSuffix(s: string)
    requires s in SkipDirs
    ensures Suffix(s) == ""
  {
    SkipDirsDotFree(s);
  }

  /** No skipped directory name has a dot after its first character other
      than a final one. */
  lemma SkipDirsDotFree(s: string)
    requires s in SkipDirs
    ensures forall k :: 0 < k < |s| - 1 ==> s[k] != '.'
  {
  }

  /** The suffix of the lower-cased name is the lower-cased suffix. */
  lemma LowerKeepsSuffix(name: string)
    ensures Suffix(Lower(name)) == Lower(Suffix(name))
    ensures Lower(Suffix(Lower(name))) == Lower(Suffix(name))
  {
    var i := LastIndexOf(name, '.');
    LowerKeepsDots(name);
    if 0 < i < |name| - 1 {
      assert Lower(name)[i..] == Lower(name[i..]);
    }
    LowerIdempotent(Suffix(name));
  }

  /** Lower-casing moves no dot: the last one stays where it was. */
  lemma {:induction false} LowerKeepsDots(s: string)
    ensures LastIndexOf(Lower(s), '.') == LastIndexOf(s, '.')
  {
    if |s| > 0 {
      LowerKeepsDots(s[..|s| - 1]);
      assert Lower(s)[..|s| - 1] == Lower(s[..|s| - 1]);
    }
  }

  /** Two file names in the same directory with the same lower-cased suffix,
      neither a skipped directory name, get the same verdict. */
  lemma SameSuffixSameVerdict(dir: PathParts, a: string, b: string, size: Option<int>)
    requires Lower(Suffix(a)) == Lower(Suffix(b))
    requires a !in SkipDirs && b !in SkipDirs
    ensures ShouldIndexFile(dir + [a], size) <==> ShouldIndexFile(dir + [b], size)
  {
    assert HasSupportedSuffix(a) <==> HasSupportedSuffix(b);
    assert Name(dir + [a]) == a && Name(dir + [b]) == b;
    OutsideSkipDirsAppend(dir, a);
    OutsideSkipDirsAppend(dir, b);
  }

  /** Appending a name that is not a skipped directory keeps the verdict of
      the directory part. */
  lemma OutsideSkipDirsAppend(dir: PathParts, a: string)
    requires a !in SkipDirs
    ensures OutsideSkipDirs(dir + [a]) <==> OutsideSkipDirs(dir)
  {
    var p := dir + [a];
    assert forall i :: 0 <= i < |p| ==> p[i] == if i < |dir| then dir[i] else a;
  }

  /** One entry of the recursive walk: its path relative to the project root,
      whether it is a regular file, its size (None when `stat` fails) and its
      decoded content (None when reading fails). */
  datatype Entry = Entry(rel: PathParts, isFile: bool, size: Option<int>, content: Option<string>)

  /** The metadata stored with each document. */
  datatype DocMeta = DocMeta(filePath: string, fileType: string, fileName: string, fileSize: int)

  datatype Document = Document(text: string, meta: DocMeta)

  /** A piece of a document produced by the node parser, with the metadata
      of its document. */
  datatype Chunk = Chunk(text: string, meta: DocMeta)

  /** `str(rel_path)` on a POSIX system. */
  function PathText(parts: PathParts): string {
    Join("/", parts)
  }

  /** Whether `load_documents` turns the entry into a document. */
  predicate Admitted(root: PathParts, e: Entry) {
    && e.isFile
    && ShouldIndexFile(root + e.rel, e.size)
    && e.content.Some?
    && Strip(e.content.value) != ""
  }

  /** The document of an admitted entry: the suffix in its original case,
      and the size in characters of the decoded content. */
  function MakeDocument(e: Entry): (d: Document)
    requires e.content.Some?
    ensures d.text == e.content.value && d.meta.fileSize == |d.text|
    ensures d.meta.fileName == Name(e.rel)
    ensures d.meta.fileType == Suffix(d.meta.fileName)
  {
    var content := e.content.value;
    Document(content, DocMeta(PathText(e.rel), Suffix(Name(e.rel)), Name(e.rel), |content|))
  }

  /** `load_documents`: one document per admitted entry, in walk order. */
  function LoadDocuments(root: PathParts, entries: seq<Entry>): (docs: seq<Document>)
    ensures |docs| <= |entries|
    ensures forall d :: d in docs ==> !IsBlank(d.text) && d.meta.fileSize == |d.text|
  {
    if |entries| == 0 then []
    else EntryDocuments(root, entries[0]) + LoadDocuments(root, entries[1..])
  }

  /** What `load_documents` makes of one entry: its document when the entry
      is admitted, nothing otherwise. */
  function EntryDocuments(root: PathParts, e: Entry): (ds: seq<Document>)
    ensures Admitted(root, e) ==> ds == [MakeDocument(e)]
    ensures !Admitted(root, e) ==> ds == []
    ensures forall d :: d in ds ==> !IsBlank(d.text) && d.meta.fileSize == |d.text|
  {
    if Admitted(root, e) then
      AdmittedDocument(e);
      [MakeDocument(e)]
    else []
  }

  /** The document made from read, non-blank content is not blank and
      records its length. */
  lemma AdmittedDocument(e: Entry)
    requires e.content.Some? && Strip(e.content.value) != ""
    ensures forall d :: d in [MakeDocument(e)] ==> !IsBlank(d.text) && d.meta.fileSize == |d.text|
  {
    StripEmptyIffBlank(e.content.value);
  }

  /** Every admitted entry yields its document. */
  lemma {:induction false} LoadDocumentsComplete(root: PathParts, entries: seq<Entry>, e: Entry)
    requires e in entries && Admitted(root, e)
    ensures MakeDocument(e) in LoadDocuments(root, entries)
  {
    if e != entries[0] {
      assert e in entries[1..];
      LoadDocumentsComplete(root, entries[1..], e);
    }
  }

  /** Every document comes from an admitted entry. */
  lemma {:induction false} LoadDocumentsSound(root: PathParts, entries: seq<Entry>, d: Document)
    requires d in LoadDocuments(root, entries)
    ensures exists e :: e in entries && Admitted(root, e) && d == MakeDocument(e)
  {
    var rest := LoadDocuments(root, entries[1..]);
    if d in rest {
      LoadDocumentsSound(root, entries[1..], d);
      var e :| e in entries[1..] && Admitted(root, e) && d == MakeDocument(e);
      assert e in entries;
    } else {
      assert entries[0] in entries;
    }
  }

  /** A whitespace-only file never yields a document. */
  lemma BlankFileSkipped(root: PathParts, e: Entry)
    requires e.content.Some? && IsBlank(e.content.value)
    ensures !Admitted(root, e)
  {
    StripEmptyIffBlank(e.content.value);
  }

  /** The index-level metadata record. */
  datatype IndexMeta = IndexMeta(
    projectPath: string,
    indexPath: string,
    numDocuments: nat,
    numChunks: nat,
    supportedExtensions: set<string>,
    embeddingModel: string,
    embeddingDimension: nat,
    useDummy: bool,
    createdAt: string)

  /** Why `create_index` fails. */
  datatype IndexError = NoDocuments

  /** `create_index`: loads the documents, fails when none survive, splits
      them with `split` (the node parser, not modelled), and records the
      metadata; the embedder choice fixes the model name and dimension. */
  function CreateIndex(
    root: PathParts, rootText: string, indexPath: string, entries: seq<Entry>,
    embeddingModel: string, useDummy: bool,
    split: seq<Document> -> seq<Chunk>, createdAt: string): (out: Result<IndexMeta, IndexError>)
    ensures out.Err? <==> LoadDocuments(root, entries) == []
    ensures out.Ok? ==>
      var m := out.value;
      && m.numDocuments == |LoadDocuments(root, entries)| > 0
      && m.numChunks == |split(LoadDocuments(root, entries))|
      && m.supportedExtensions == SupportedExtensions
      && m.useDummy == useDummy
      && (useDummy ==> m.embeddingModel == "dummy" && m.embeddingDimension == 384)
      && (!useDummy ==> m.embeddingModel == embeddingModel && m.embeddingDimension == 1536)
  {
    var docs := LoadDocuments(root, entries);
    if |docs| == 0 then Err(NoDocuments)
    else
      var nodes := split(docs);
      Ok(IndexMeta(
        rootText, indexPath, |docs|, |nodes|, SupportedExtensions,
        if useDummy then DummyModelName else embeddingModel,
        if useDummy then DummyDimension else OpenAIDimension,
        useDummy, createdAt))
  }

  /** What `update_index` does. */
  datatype UpdateAction = LoadExisting | Rebuild(embeddingModel: string, useDummy: bool)

  /** `update_index`: keep the index on disk unless it is missing or a
      rebuild is forced; a rebuild always uses `create_index`'s defaults. */
  function UpdateIndex(indexExists: bool, force: bool): (a: UpdateAction)
    ensures a.LoadExisting? <==> indexExists && !force
    ensures a.Rebuild? ==> a == Rebuild("text-embedding-ada-002", false)
  {
    if indexExists && !force then LoadExisting else Rebuild(DefaultEmbeddingModel, false)
  }

  /** An index built with the dummy embedder is rebuilt with the networked
      one when an update is forced: the embedder choice is not kept. */
  lemma ForcedUpdateDropsDummy(
    root: PathParts, rootText: string, indexPath: string, entries: seq<Entry>,
    split: seq<Document> -> seq<Chunk>, createdAt: string)
    requires LoadDocuments(root, entries) != []
    ensures var a := UpdateIndex(true, true);
      && a.Rebuild?
      && CreateIndex(root, rootText, indexPath, entries, a.embeddingModel, a.useDummy, split, createdAt).Ok?
      && CreateIndex(root, rootText, indexPath, entries, a.embeddingModel, a.useDummy, split, createdAt).value.embeddingDimension == 1536
  {
  }
}

=== FILE: outcomes.dfy ===
/** Optional values and results with an error, used wherever the Python code
    returns `None` or raises. */
module Outcomes {

  /** A value that may be absent: Python's `Optional[T]`. */
  datatype Option<+T> = None | Some(value: T) {

    /** The value, or `default` when absent: Python's `d.get(key, default)`. */
    function GetOr(default: T): T {
      if this.Some? then this.value else default
    }
  }

  /** Either a value or the error the Python code would raise. */
  datatype Result<+T, +E> = Ok(value: T) | Err(error: E)
}

=== FILE: search.dfy ===
/** The semantic search engine (`SemanticSearchEngine`, src/search/engine.py):
    everything it does with what the vector index retrieves. The retriever
    itself is an oracle; ranking and score thresholds happen inside it. */
module Search {
  import opened Outcomes
  import opened Text

  /** The metadata dictionary of a retrieved node; a key the dictionary lacks
      (or a node whose metadata is None) reads as `None`. */
  datatype NodeMeta = NodeMeta(
    filePath: Option<string>,
    fileType: Option<string>,
    fileName: Option<string>,
    fileSize: Option<int>)

  /** A retrieved chunk: its text, the retriever's score and its metadata. */
  datatype Node = Node(text: string, score: real, meta: NodeMeta)

  /** A loaded vector index, seen only through its retriever:
      `retrieve(q, k)` is the node list `as_retriever(similarity_top_k=k).retrieve(q)`
      returns, in the retriever's order. */
  datatype Index = Index(retrieve: (string, int) -> seq<Node>)

  /** One result record of `search`. */
  datatype SearchResult = SearchResult(
    rank: int,
    score: real,
    content: string,
    filePath: string,
    fileType: string,
    fileName: string,
    fileSize: int)

  /** The record `get_file_summary` returns. */
  datatype Summary = Summary(filePath: string, totalChunks: nat, contentPreview: string, fileType: string)

  const UnknownPath: string := "unknown"
  const DefaultTopK: int := 5
  const SummaryTopK: int := 20
  const PreviewLimit: nat := 1000
  const Ellipsis: string := "..."

  // ---------------------------------------------------------------------
  // search: result records
  // ---------------------------------------------------------------------

  /** The record for the node at 0-based position `i` of the retriever's list. */
  function FromNode(i: nat, n: Node): SearchResult {
    SearchResult(
      i + 1, n.score, n.text,
      n.meta.filePath.GetOr(UnknownPath),
      n.meta.fileType.GetOr(""),
      n.meta.fileName.GetOr(""),
      n.meta.fileSize.GetOr(0))
  }

  /** Ranks are 1, 2, 3, ... in list order. */
  ghost predicate Ranked(rs: seq<SearchResult>) {
    forall i :: 0 <= i < |rs| ==> rs[i].rank == i + 1
  }

  /** `r` carries the node's text and score, each metadata value the node
      has, and the documented default for each one it lacks. */
  ghost predicate Describes(r: SearchResult, n: Node) {
    && r.content == n.text
    && r.score == n.score
    && (if n.meta.filePath.Some? then r.filePath == n.meta.filePath.value else r.filePath == UnknownPath)
    && (if n.meta.fileType.Some? then r.fileType == n.meta.fileType.value else r.fileType == "")
    && (if n.meta.fileName.Some? then r.fileName == n.meta.fileName.value else r.fileName == "")
    && (if n.meta.fileSize.Some? then r.fileSize == n.meta.fileSize.value else r.fileSize == 0)
  }

  /** `search` on a loaded index: one record per retrieved node, in the
      retriever's order, ranked from 1. */
  function SearchIn(ix: Index, query: string, topK: int): (rs: seq<SearchResult>)
    ensures |rs| == |ix.retrieve(query, topK)|
    ensures Ranked(rs)
    ensures forall i :: 0 <= i < |rs| ==> Describes(rs[i], ix.retrieve(query, topK)[i])
  {
    var nodes := ix.retrieve(query, topK);
    seq(|nodes|, i requires 0 <= i < |nodes| => FromNode(i, nodes[i]))
  }

  /** Ranks that strictly increase along the list. */
  ghost predicate RanksIncrease(rs: seq<SearchResult>) {
    forall i, j :: 0 <= i < j < |rs| ==> rs[i].rank < rs[j].rank
  }

  // ---------------------------------------------------------------------
  // search_by_file_type
  // ---------------------------------------------------------------------

  /** `[ext.lower() for ext in exts]` */
  function LowerAll(exts: seq<string>): (r: seq<string>)
    ensures |r| == |exts|
    ensures forall i :: 0 <= i < |exts| ==> r[i] == Lower(exts[i])
  {
    seq(|exts|, i requires 0 <= i < |exts| => Lower(exts[i]))
  }

  /** The filter of `search_by_file_type`: the lower-cased file type is one
      of the lower-cased extensions. */
  predicate TypeMatches(r: SearchResult, exts: seq<string>) {
    Lower(r.fileType) in LowerAll(exts)
  }

  /** The records whose file type matches, in their original order. */
  function KeepTypes(rs: seq<SearchResult>, exts: seq<string>): (kept: seq<SearchResult>)
    ensures |kept| <= |rs|
    ensures forall r :: r in kept <==> r in rs && TypeMatches(r, exts)
  {
    if |rs| == 0 then []
    else if TypeMatches(rs[0], exts) then [rs[0]] + KeepTypes(rs[1..], exts)
    else KeepTypes(rs[1..], exts)
  }

  /** Filtering keeps the records in their original order, so ranks still
      increase; they are not renumbered. */
  lemma {:induction false} KeepTypesKeepsOrder(rs: seq<SearchResult>, exts: seq<string>)
    requires RanksIncrease(rs)
    ensures RanksIncrease(KeepTypes(rs, exts))
  {
    if |rs| > 0 {
      var tail := rs[1..];
      assert RanksIncrease(tail) by {
        forall i, j | 0 <= i < j < |tail| ensures tail[i].rank < tail[j].rank {
          assert tail[i] == rs[i + 1] && tail[j] == rs[j + 1];
        }
      }
      KeepTypesKeepsOrder(tail, exts);
      var kt := KeepTypes(tail, exts);
      if TypeMatches(rs[0], exts) {
        var kept := [rs[0]] + kt;
        forall i, j | 0 <= i < j < |kept| ensures kept[i].rank < kept[j].rank {
          if i == 0 {
            assert kept[j] in tail;
            var m :| 0 <= m < |tail| && tail[m] == kept[j];
            assert rs[m + 1] == kept[j];
          } else {
            assert kept[i] == kt[i - 1] && kept[j] == kt[j - 1];
          }
        }
      }
    }
  }

  /** A ranked list has increasing ranks. */
  lemma RankedRanksIncrease(rs: seq<SearchResult>)
    requires Ranked(rs)
    ensures RanksIncrease(rs)
  {
  }

  /** `search_by_file_type` on a loaded index: over-fetch `2 * topK`, keep the
      matching file types, cut with Python's `[:topK]`. */
  function SearchByTypeIn(ix: Index, query: string, exts: seq<string>, topK: int): (rs: seq<SearchResult>)
    ensures topK >= 0 ==> |rs| <= topK
    ensures |rs| <= |KeepTypes(SearchIn(ix, query, topK * 2), exts)|
    ensures forall r :: r in rs ==> TypeMatches(r, exts) && r in SearchIn(ix, query, topK * 2)
    ensures rs == KeepTypes(SearchIn(ix, query, topK * 2), exts)[..|rs|]
    ensures RanksIncrease(rs)
    ensures topK >= 0 ==>
      var n := |KeepTypes(SearchIn(ix, query, topK * 2), exts)|;
      |rs| == if topK < n then topK else n
    ensures topK < 0 ==>
      var n := |KeepTypes(SearchIn(ix, query, topK * 2), exts)|;
      |rs| == if n + topK > 0 then n + topK else 0
  {
    var all := SearchIn(ix, query, topK * 2);
    var kept := KeepTypes(all, exts);
    RankedRanksIncrease(all);
    KeepTypesKeepsOrder(all, exts);
    var rs := PyHead(kept, topK);
    assert forall r :: r in rs ==> r in kept;
    rs
  }

  // ---------------------------------------------------------------------
  // format_for_claude
  // ---------------------------------------------------------------------

  /** The "no results" rendering. */
  function NoResults(query: string): string {
    "# No results found for: '" + query + "'"
  }

  /** The first line of a non-empty rendering. */
  function Heading(query: string): string {
    "# Semantic Search Results for: '" + query + "'"
  }

  /** The five lines rendered for one record; `render` is `{score:.3f}`. */
  function Block(r: SearchResult, render: real -> string): seq<string> {
    [ "## Result " + IntToString(r.rank) + ": " + r.filePath,
      "*Relevance Score: " + render(r.score) + "*\n",
      "```" + LStripDots(r.fileType),
      r.content,
      "```\n" ]
  }

  /** The blocks of all records, in input order. */
  function Blocks(rs: seq<SearchResult>, render: real -> string): (lines: seq<string>)
    ensures |lines| == 5 * |rs|
  {
    var blocks := seq(|rs|, j requires 0 <= j < |rs| => Block(rs[j], render));
    ConcatOfFives(blocks);
    Concat(blocks)
  }

  /** The concatenation of a list of lists. */
  function Concat<T>(xss: seq<seq<T>>): seq<T> {
    if |xss| == 0 then [] else xss[0] + Concat(xss[1..])
  }

  /** Concatenating lists of five elements each: element `5 * i + k` is
      element `k` of the `i`-th list. */
  lemma {:induction false} ConcatOfFives<T>(xss: seq<seq<T>>)
    requires forall j :: 0 <= j < |xss| ==> |xss[j]| == 5
    ensures |Concat(xss)| == 5 * |xss|
    ensures forall i, k :: 0 <= i < |xss| && 0 <= k < 5 ==> Concat(xss)[5 * i + k] == xss[i][k]
  {
    if |xss| > 0 {
      var rest := xss[1..];
      ConcatOfFives(rest);
      assert Concat(xss) == xss[0] + Concat(rest);
      forall i, k | 0 <= i < |xss| && 0 <= k < 5
        ensures Concat(xss)[5 * i + k] == xss[i][k]
      {
        if i > 0 {
          assert rest[i - 1] == xss[i];
          assert Concat(rest)[5 * (i - 1) + k] == rest[i - 1][k];
        }
      }
    }
  }

  /** Line `5 * i + k` of `Blocks` is line `k` of the `i`-th record's block. */
  lemma BlocksAt(rs: seq<SearchResult>, render: real -> string, i: nat, k: nat)
    requires i < |rs| && k < 5
    ensures Blocks(rs, render)[5 * i + k] == Block(rs[i], render)[k]
  {
    var blocks := seq(|rs|, j requires 0 <= j < |rs| => Block(rs[j], render));
    ConcatOfFives(blocks);
    assert blocks[i] == Block(rs[i], render);
  }

  /** The lines joined by `format_for_claude` for a non-empty list: a heading
      with the query, the count, then five lines per record. */
  function FormatLines(rs: seq<SearchResult>, query: string, render: real -> string): (lines: seq<string>)
    ensures |lines| == 2 + 5 * |rs|
    ensures lines[0] == Heading(query)
    ensures lines[1] == "Found " + IntToString(|rs|) + " relevant code sections:\n"
  {
    [Heading(query), "Found " + IntToString(|rs|) + " relevant code sections:\n"] + Blocks(rs, render)
  }

  /** The five lines of record `i`: a heading with the record's own rank and
      path, its score as rendered, a fence tagged with the file type without
      leading dots, the content verbatim, and the closing fence. */
  lemma FormatLinesRecord(rs: seq<SearchResult>, query: string, render: real -> string, i: nat)
    requires i < |rs|
    ensures var lines := FormatLines(rs, query, render);
      && lines[2 + 5 * i] == "## Result " + IntToString(rs[i].rank) + ": " + rs[i].filePath
      && lines[2 + 5 * i + 1] == "*Relevance Score: " + render(rs[i].score) + "*\n"
      && lines[2 + 5 * i + 2] == "```" + LStripDots(rs[i].fileType)
      && lines[2 + 5 * i + 3] == rs[i].content
      && lines[2 + 5 * i + 4] == "```\n"
  {
    var lines := FormatLines(rs, query, render);
    var block := Block(rs[i], render);
    FormatLineAt(rs, query, render, i, 0);
    FormatLineAt(rs, query, render, i, 1);
    FormatLineAt(rs, query, render, i, 2);
    FormatLineAt(rs, query, render, i, 3);
    FormatLineAt(rs, query, render, i, 4);
    assert lines[2 + 5 * i] == block[0];
    assert lines[2 + 5 * i + 1] == block[1];
    assert lines[2 + 5 * i + 2] == block[2];
    assert lines[2 + 5 * i + 3] == block[3];
    assert lines[2 + 5 * i + 4] == block[4];
  }

  /** Line `2 + 5 * i + k` of the rendering is line `k` of record `i`'s block. */
  lemma FormatLineAt(rs: seq<SearchResult>, query: string, render: real -> string, i: nat, k: nat)
    requires i < |rs| && k < 5
    ensures FormatLines(rs, query, render)[2 + 5 * i + k] == Block(rs[i], render)[k]
  {
    var head := [Heading(query), "Found " + IntToString(|rs|) + " relevant code sections:\n"];
    var blocks := Blocks(rs, render);
    BlocksAt(rs, render, i, k);
    assert (head + blocks)[2 + 5 * i + k] == blocks[5 * i + k];
  }

  /** `format_for_claude(results, query)`. */
  function FormatForClaude(rs: seq<SearchResult>, query: string, render: real -> string): (text: string)
    ensures |rs| == 0 ==> text == "# No results found for: '" + query + "'"
    ensures |rs| > 0 ==> StartsWith(text, "# Semantic Search Results for: '" + query + "'")
    ensures text != ""
  {
    if |rs| == 0 then NoResults(query)
    else
      JoinStartsWith("\n", FormatLines(rs, query, render));
      Join("\n", FormatLines(rs, query, render))
  }

  // ---------------------------------------------------------------------
  // get_file_summary
  // ---------------------------------------------------------------------

  /** The file paths of the records, in order. */
  function Paths(rs: seq<SearchResult>): (ps: seq<string>)
    ensures |ps| == |rs|
    ensures forall i :: 0 <= i < |rs| ==> ps[i] == rs[i].filePath
  {
    seq(|rs|, i requires 0 <= i < |rs| => rs[i].filePath)
  }

  /** The contents of the records, in order. */
  function Contents(rs: seq<SearchResult>): seq<string> {
    seq(|rs|, i requires 0 <= i < |rs| => rs[i].content)
  }

  /** `[r for r in rs if r['file_path'] == path]` */
  function HitsFor(rs: seq<SearchResult>, path: string): seq<SearchResult> {
    if |rs| == 0 then []
    else if rs[0].filePath == path then [rs[0]] + HitsFor(rs[1..], path)
    else HitsFor(rs[1..], path)
  }

  /** The number of hits for `path` is the number of times `path` occurs
      among the records' file paths. */
  lemma {:induction false} HitsForCount(rs: seq<SearchResult>, path: string)
    ensures |HitsFor(rs, path)| == multiset(Paths(rs))[path]
  {
    if |rs| > 0 {
      HitsForCount(rs[1..], path);
      assert Paths(rs) == [rs[0].filePath] + Paths(rs[1..]);
    }
  }

  /** Every hit for `path` has exactly that path. */
  lemma {:induction false} HitsForExact(rs: seq<SearchResult>, path: string)
    ensures forall r :: r in HitsFor(rs, path) ==> r in rs && r.filePath == path
  {
    if |rs| > 0 {
      HitsForExact(rs[1..], path);
    }
  }

  /** The preview: cut to `PreviewLimit` characters plus an ellipsis only when
      longer than the limit. */
  function Preview(content: string): (p: string)
    ensures |p| <= PreviewLimit + |Ellipsis|
    ensures |content| <= PreviewLimit ==> p == content
    ensures |content| > PreviewLimit ==> p == content[..PreviewLimit] + Ellipsis
  {
    if |content| > PreviewLimit then content[..PreviewLimit] + Ellipsis else content
  }

  /** The preview agrees with the content on its first `PreviewLimit`
      characters, and cutting a preview again changes nothing. */
  lemma PreviewStable(content: string)
    ensures var n := if |content| < PreviewLimit then |content| else PreviewLimit;
      |Preview(content)| >= n && Preview(content)[..n] == content[..n]
    ensures Preview(Preview(content)) == Preview(content)
  {
  }

  /** `get_file_summary` on a loaded index. */
  function SummaryIn(ix: Index, path: string): (s: Option<Summary>)
    ensures s.None? <==> |ix.retrieve("file:" + path, SummaryTopK)| == 0
    ensures s.Some? ==>
      var rs := SearchIn(ix, "file:" + path, SummaryTopK);
      && s.value.filePath == path
      && s.value.totalChunks == multiset(Paths(rs))[path]
      && s.value.contentPreview == Preview(Join("\n", Contents(HitsFor(rs, path))))
      && |s.value.contentPreview| <= PreviewLimit + 3
      && (s.value.totalChunks == 0 ==> s.value.contentPreview == "")
      && s.value.fileType == ix.retrieve("file:" + path, SummaryTopK)[0].meta.fileType.GetOr("")
  {
    var rs := SearchIn(ix, "file:" + path, SummaryTopK);
    if |rs| == 0 then None
    else
      var hits := HitsFor(rs, path);
      HitsForCount(rs, path);
      Some(Summary(path, |hits|, Preview(Join("\n", Contents(hits))), rs[0].fileType))
  }

  // ---------------------------------------------------------------------
  // get_similar_files
  // ---------------------------------------------------------------------

  /** Reference definition: the paths not in `seen`, each at its first
      occurrence, in order. */
  function DistinctFirst(paths: seq<string>, seen: set<string>): seq<string> {
    if |paths| == 0 then []
    else if paths[0] in seen then DistinctFirst(paths[1..], seen)
    else [paths[0]] + DistinctFirst(paths[1..], seen + {paths[0]})
  }

  /** The elements of a list are pairwise different. */
  ghost predicate Distinct(xs: seq<string>) {
    forall i, j :: 0 <= i < j < |xs| ==> xs[i] != xs[j]
  }

  /** `DistinctFirst` lists distinct paths, none of them seen, each taken
      from `paths`; and every unseen path of `paths` is listed. */
  lemma {:induction false} DistinctFirstSpec(paths: seq<string>, seen: set<string>)
    ensures Distinct(DistinctFirst(paths, seen))
    ensures forall x :: x in DistinctFirst(paths, seen) <==> x in paths && x !in seen
  {
    if |paths| > 0 {
      var p := paths[0];
      if p in seen {
        DistinctFirstSpec(paths[1..], seen);
        assert paths == [p] + paths[1..];
      } else {
        DistinctFirstSpec(paths[1..], seen + {p});
        var rest := DistinctFirst(paths[1..], seen + {p});
        var d := [p] + rest;
        forall i, j | 0 <= i < j < |d| ensures d[i] != d[j] {
          if i == 0 {
            assert d[j] in rest;
          } else {
            assert d[i] == rest[i - 1] && d[j] == rest[j - 1];
          }
        }
        assert paths == [p] + paths[1..];
      }
    }
  }

  /** What `get_similar_files` returns for retrieved `paths`: with `topK >= 1`
      the first `topK` distinct paths other than `path`; with `topK <= 0`
      the loop still admits the first path (if it is not `path`) before its
      length check stops it. */
  function SimilarPaths(paths: seq<string>, path: string, topK: int): seq<string> {
    if topK >= 1 then PyHead(DistinctFirst(paths, {path}), topK)
    else if |paths| > 0 && paths[0] != path then [paths[0]]
    else []
  }

  /** The loop of `get_similar_files`, over the retrieved records. */
  method CollectSimilar(rs: seq<SearchResult>, path: string, topK: int) returns (similar: seq<string>)
    ensures similar == SimilarPaths(Paths(rs), path, topK)
  {
    similar := [];
    var seen := {path};
    var i := 0;
    ghost var ps := Paths(rs);
    while i < |rs|
      invariant 0 <= i <= |rs|
      invariant similar + DistinctFirst(ps[i..], seen) == DistinctFirst(ps, {path})
      invariant topK >= 1 ==> |similar| < topK
      invariant topK < 1 ==> i == 0 && similar == [] && seen == {path}
      decreases |rs| - i
    {
      var file := rs[i].filePath;
      CollectStep(similar, seen, ps, i, DistinctFirst(ps, {path}));
      if file !in seen {
        similar := similar + [file];
        seen := seen + {file};
      }
      i := i + 1;
      if |similar| >= topK {
        if topK >= 1 {
          PyHeadOfExtension(similar, DistinctFirst(ps[i..], seen), topK);
        }
        return;
      }
    }
    assert ps[i..] == [];
  }

  /** One step of the loop keeps the collected paths followed by the rest of
      the walk equal to the whole walk. */
  lemma CollectStep(similar: seq<string>, seen: set<string>, ps: seq<string>, i: nat, target: seq<string>)
    requires i < |ps| && similar + DistinctFirst(ps[i..], seen) == target
    ensures ps[i] in seen ==> similar + DistinctFirst(ps[i + 1..], seen) == target
    ensures ps[i] !in seen ==> (similar + [ps[i]]) + DistinctFirst(ps[i + 1..], seen + {ps[i]}) == target
  {
    assert ps[i..][1..] == ps[i + 1..];
    assert ps[i..][0] == ps[i];
    if ps[i] !in seen {
      assert similar + ([ps[i]] + DistinctFirst(ps[i + 1..], seen + {ps[i]})) == target;
    }
  }

  /** Cutting `a + b` to `|a|` elements gives `a`. */
  lemma PyHeadOfExtension(a: seq<string>, b: seq<string>, n: int)
    requires n == |a|
    ensures PyHead(a + b, n) == a
  {
    assert (a + b)[..|a|] == a;
  }

  /** `get_similar_files` on a loaded index: `[]` without a summary,
      otherwise the similar paths among the records that a search for the
      summary's preview with `2 * topK` returns. */
  function SimilarIn(ix: Index, path: string, topK: int): (files: seq<string>)
    ensures SummaryIn(ix, path).None? ==> files == []
    ensures SummaryIn(ix, path).Some? ==>
      files == SimilarPaths(Paths(SearchIn(ix, SummaryIn(ix, path).value.contentPreview, topK * 2)), path, topK)
    ensures path !in files
    ensures Distinct(files)
    ensures |files| <= (if topK >= 1 then topK else 1)
  {
    match SummaryIn(ix, path)
    case None => []
    case Some(s) =>
      var paths := Paths(SearchIn(ix, s.contentPreview, topK * 2));
      SimilarPathsSpec(paths, path, topK);
      SimilarPaths(paths, path, topK)
  }

  /** The result of `SimilarPaths` never lists `path`, lists each path once,
      takes every path from the retrieved ones, and respects the length bound. */
  lemma SimilarPathsSpec(paths: seq<string>, path: string, topK: int)
    ensures var files := SimilarPaths(paths, path, topK);
      && path !in files
      && Distinct(files)
      && (forall x :: x in files ==> x in paths)
      && |files| <= (if topK >= 1 then topK else 1)
  {
    DistinctFirstSpec(paths, {path});
    var d := DistinctFirst(paths, {path});
    if topK >= 1 {
      var h := PyHead(d, topK);
      assert forall x :: x in h ==> x in d;
    }
  }

  // ---------------------------------------------------------------------
  // The Unloaded / Loaded engine
  // ---------------------------------------------------------------------

  /** The engine: the index it holds (None while unloaded), and what
      `load_index` would produce from disk right now (None when the index
      directory is missing or loading raises). */
  datatype Engine = Engine(index: Option<Index>, stored: Option<Index>)

  /** `load_index`: replaces the held index on success, keeps the engine as
      it was on failure, and reports which happened. */
  function LoadIndex(e: Engine): (out: (Engine, bool))
    ensures out.1 <==> e.stored.Some?
    ensures out.1 ==> out.0.index == e.stored && out.0.stored == e.stored
    ensures !out.1 ==> out.0 == e
  {
    if e.stored.Some? then (Engine(e.stored, e.stored), true) else (e, false)
  }

  /** The lazy load at the top of `search` and `get_file_summary`: an engine
      that holds an index uses it; otherwise it loads, which may fail. */
  function Acquire(e: Engine): Option<(Engine, Index)> {
    if e.index.Some? then Some((e, e.index.value))
    else
      var (e', ok) := LoadIndex(e);
      if ok then Some((e', e'.index.value)) else None
  }

  /** A loaded engine, with the records it produced. */
  datatype Searched = Searched(engine: Engine, results: seq<SearchResult>)

  const LoadFailure: string := "Could not load search index"

  /** `search`: loads lazily and raises when loading fails. */
  function EngineSearch(e: Engine, query: string, topK: int): (out: Result<Searched, string>)
    ensures out.Err? <==> e.index.None? && e.stored.None?
    ensures out.Err? ==> out.error == LoadFailure
    ensures out.Ok? ==>
      var ix := if e.index.Some? then e.index.value else e.stored.value;
      && out.value.engine.index == Some(ix)
      && out.value.results == SearchIn(ix, query, topK)
    ensures out.Ok? ==> out.value.engine == (if e.index.Some? then e else Engine(e.stored, e.stored))
  {
    match Acquire(e)
    case None => Err(LoadFailure)
    case Some((e', ix)) => Ok(Searched(e', SearchIn(ix, query, topK)))
  }

  /** `search_by_file_type`: the failure of the inner `search` propagates. */
  function EngineSearchByType(e: Engine, query: string, exts: seq<string>, topK: int): (out: Result<Searched, string>)
    ensures out.Err? <==> e.index.None? && e.stored.None?
    ensures out.Err? ==> out.error == LoadFailure
    ensures out.Ok? ==>
      var ix := if e.index.Some? then e.index.value else e.stored.value;
      && out.value.engine.index == Some(ix)
      && out.value.results == SearchByTypeIn(ix, query, exts, topK)
    ensures out.Ok? ==> out.value.engine == (if e.index.Some? then e else Engine(e.stored, e.stored))
  {
    match Acquire(e)
    case None => Err(LoadFailure)
    case Some((e', ix)) => Ok(Searched(e', SearchByTypeIn(ix, query, exts, topK)))
  }

  /** `get_file_summary`: a failed load yields None instead of raising. */
  function EngineFileSummary(e: Engine, path: string): (out: (Engine, Option<Summary>))
    ensures e.index.None? && e.stored.None? ==> out == (e, None)
    ensures e.index.Some? ==> out == (e, SummaryIn(e.index.value, path))
    ensures e.index.None? && e.stored.Some? ==> out == (Engine(e.stored, e.stored), SummaryIn(e.stored.value, path))
  {
    match Acquire(e)
    case None => (e, None)
    case Some((e', ix)) => (e', SummaryIn(ix, path))
  }

  /** `get_similar_files`: `[]` when nothing can be loaded, otherwise the
      similar files on the acquired index, which the engine then holds. */
  function EngineSimilarFiles(e: Engine, path: string, topK: int): (out: (Engine, seq<string>))
    ensures path !in out.1 && Distinct(out.1)
    ensures |out.1| <= (if topK >= 1 then topK else 1)
    ensures e.index.None? && e.stored.None? ==> out == (e, [])
    ensures out.0 == (if e.index.Some? || e.stored.None? then e else Engine(e.stored, e.stored))
    ensures e.index.Some? || e.stored.Some? ==>
      var ix := if e.index.Some? then e.index.value else e.stored.value;
      && out.0.index == Some(ix)
      && out.1 == SimilarIn(ix, path, topK)
  {
    match Acquire(e)
    case None => (e, [])
    case Some((e', ix)) => (e', SimilarIn(ix, path, topK))
  }
}

=== FILE: text.dfy ===
/** The few Python string and list primitives the core relies on, written out
    so that their edge cases are explicit. */
module Text {

  /** The characters Python's `str.isspace()` accepts, which are the ones
      `str.strip()` removes. */
  predicate IsSpace(c: char) {
    var n := c as int;
    || (9 <= n <= 13)            // \t \n \v \f \r
    || (28 <= n <= 32)           // \x1c .. \x1f and the space
    || n == 0x85 || n == 0xA0 || n == 0x1680
    || (0x2000 <= n <= 0x200A)
    || n == 0x2028 || n == 0x2029 || n == 0x202F || n == 0x205F || n == 0x3000
  }

  /** Every character of `s` is white space (vacuously true of ""). */
  predicate IsBlank(s: string) {
    forall i :: 0 <= i < |s| ==> IsSpace(s[i])
  }

  /** Python's `s.lstrip()`: drops the leading white space. */
  function LStrip(s: string): (r: string)
    ensures |r| <= |s| && r == s[|s| - |r|..]
    ensures IsBlank(s[..|s| - |r|])
    ensures r == [] || !IsSpace(r[0])
  {
    if |s| > 0 && IsSpace(s[0]) then LStrip(s[1..]) else s
  }

  /** Python's `s.rstrip()`: drops the trailing white space. */
  function RStrip(s: string): (r: string)
    ensures |r| <= |s| && r == s[..|r|]
    ensures IsBlank(s[|r|..])
    ensures r == [] || !IsSpace(r[|r| - 1])
  {
    if |s| > 0 && IsSpace(s[|s| - 1]) then RStrip(s[..|s| - 1]) else s
  }

  /** Python's `s.strip()`. */
  function Strip(s: string): string {
    RStrip(LStrip(s))
  }

  /** `not s.strip()` holds exactly when `s` is blank, and otherwise the
      stripped text neither starts nor ends with white space. */
  lemma StripEmptyIffBlank(s: string)
    ensures Strip(s) == [] <==> IsBlank(s)
    ensures Strip(s) != [] ==> !IsSpace(Strip(s)[0]) && !IsSpace(Strip(s)[|Strip(s)| - 1])
  {
    var l := LStrip(s);
    if Strip(s) == [] {
      assert IsBlank(l[0..]);
      assert s[..|s| - |l|] == s;
    } else {
      assert l[0] == s[|s| - |l|];
    }
  }

  /** Python's `c.lower()` on an ASCII letter; other characters are kept. */
  function LowerChar(c: char): char {
    if 'A' <= c <= 'Z' then (c as int + 32) as char else c
  }

  /** Python's `s.lower()`, restricted to ASCII letters. */
  function Lower(s: string): (r: string)
    ensures |r| == |s|
    ensures forall i :: 0 <= i < |s| ==> r[i] == LowerChar(s[i])
  {
    seq(|s|, i requires 0 <= i < |s| => LowerChar(s[i]))
  }

  /** Lower-casing twice is lower-casing once. */
  lemma LowerIdempotent(s: string)
    ensures Lower(Lower(s)) == Lower(s)
  {
  }

  /** Python's `s.startswith(prefix)`. */
  predicate StartsWith(s: string, prefix: string) {
    |prefix| <= |s| && s[..|prefix|] == prefix
  }

  /** Python's `s.lstrip('.')`: drops every leading dot. */
  function LStripDots(s: string): (r: string)
    ensures |r| <= |s| && r == s[|s| - |r|..]
    ensures forall i :: 0 <= i < |s| - |r| ==> s[i] == '.'
    ensures r == [] || r[0] != '.'
  {
    if |s| > 0 && s[0] == '.' then LStripDots(s[1..]) else s
  }

  /** Python's `sep.join(parts)`. */
  function Join(sep: string, parts: seq<string>): string
    decreases |parts|
  {
    if |parts| == 0 then ""
    else if |parts| == 1 then parts[0]
    else parts[0] + sep + Join(sep, parts[1..])
  }

  /** The joined text starts with the first part. */
  lemma JoinStartsWith(sep: string, parts: seq<string>)
    requires |parts| > 0
    ensures StartsWith(Join(sep, parts), parts[0])
  {
    if |parts| > 1 {
      assert Join(sep, parts) == parts[0] + (sep + Join(sep, parts[1..]));
    }
  }

  /** The decimal digit for `d`. */
  function Digit(d: nat): (c: char)
    requires d < 10
    ensures '0' <= c <= '9' && DigitValue(c) == d
  {
    ('0' as int + d) as char
  }

  /** The value of a decimal digit character. */
  function DigitValue(c: char): int {
    c as int - '0' as int
  }

  /** The value of a string of decimal digits, read most significant first. */
  function DigitsValue(s: string): int {
    if |s| == 0 then 0 else 10 * DigitsValue(s[..|s| - 1]) + DigitValue(s[|s| - 1])
  }

  /** Python's `str(n)` for a natural number. */
  function NatToString(n: nat): (r: string)
    ensures |r| > 0
    ensures forall i :: 0 <= i < |r| ==> '0' <= r[i] <= '9'
  {
    if n < 10 then [Digit(n)] else NatToString(n / 10) + [Digit(n % 10)]
  }

  /** `str(n)` is the canonical decimal numeral of `n`: reading it back gives
      `n`, and it has no leading zero unless it is "0". */
  lemma {:induction false} NatToStringValue(n: nat)
    ensures DigitsValue(NatToString(n)) == n
    ensures NatToString(n)[0] == '0' <==> n == 0
    ensures n == 0 ==> NatToString(n) == "0"
  {
    var r := NatToString(n);
    if n >= 10 {
      NatToStringValue(n / 10);
      assert r[..|r| - 1] == NatToString(n / 10);
      assert r[0] == NatToString(n / 10)[0];
    }
  }

  /** Python's `str(i)` (and `f"{i}"`) for an integer. */
  function IntToString(i: int): (r: string)
    ensures |r| > 0
    ensures r[0] == '-' <==> i < 0
  {
    if i < 0 then "-" + NatToString(-i) else NatToString(i)
  }

  /** `str(i)` reads back as `i`: a minus sign before the numeral of `-i` for
      a negative `i`, the numeral of `i` otherwise. */
  lemma IntToStringValue(i: int)
    ensures i >= 0 ==> DigitsValue(IntToString(i)) == i
    ensures i < 0 ==> IntToString(i)[1..] == NatToString(-i)
    ensures i < 0 ==> DigitsValue(IntToString(i)[1..]) == -i
  {
    if i < 0 {
      NatToStringValue(-i);
      assert IntToString(i)[1..] == NatToString(-i);
    } else {
      NatToStringValue(i);
    }
  }

  /** Python's slice `s[:n]`: a negative `n` counts from the end. */
  function PyHead<T>(s: seq<T>, n: int): (r: seq<T>)
    ensures |r| <= |s| && r == s[..|r|]
    ensures n >= 0 ==> |r| == (if n < |s| then n else |s|)
    ensures n < 0 ==> |r| == (if |s| + n > 0 then |s| + n else 0)
  {
    if n >= 0 then (if n < |s| then s[..n] else s)
    else if |s| + n > 0 then s[..|s| + n] else []
  }
}
